=== FILE: README.md ===
# Contacts REST API: decision and sequence core

This project models the deterministic core of a small contacts REST backend written for
Express, Mongoose and Joi, and proves properties of that model in Dafny.

- **Contact store** (`ContactStore`). The JSON-file store keeps an ordered list of contact
  records. Each record is a JSON object, and the list is read whole and written back whole.
  The model has lookup, removal, append and replace as pure functions from the list before
  the call to the list after it and the returned value. The `{ id, ...body }` spread is
  `map["id" := Str(id)] + body`, so a body `id` overrides the stored one. The fresh uuid is a
  parameter.
- **Contact routes** (`ContactRoutes`). These are the five `/api/contacts` handlers. Each one
  maps the file's contents and the request to the file afterwards and the reply. The reply is
  either a status with a JSON body, or an error passed on to `next`. DELETE always answers
  `Contact deleted`. PUT answers 201 with JSON `null` when the id is absent. GET `/` returns
  every record, with no owner filtering.
- **Auth middleware** (`AuthMiddleware`). It splits the `Authorization` header on single
  spaces, exactly as `String.prototype.split` does (`Text.Split`, with a proved inverse
  `Text.Join`). It tests the token piece before the scheme. It maps JWT failures to 401, with
  a message that depends on the URL. Other errors get neither a response nor `next()`. It
  calls `next()` whenever verification succeeds and the lookup does not throw, even when the
  lookup found no user. `jwt.verify` and `User.findById` are function parameters.
- **Ownership guard** (`OwnerGuard`). One lookup keyed by (contact id, acting user id)
  decides between `next()`, 404 and 500. Both the lookup and `isValidObjectId` are parameters.
  A concrete collection instantiation (`StoreFind`) shows two things. Another user's contact
  cannot be told apart from a missing one. When the lookup can fail only on an id it cannot
  cast, a signed-in user never gets a 500. A database failure on a well-formed id still gives
  500. A null acting
  user, which the auth middleware lets through, throws inside the guard's `try`. It then gets
  404 for a malformed id and 500 otherwise.
- **Validators** (`JoiRules`, `ContactSchemas`, `UserSchemas`). A small interpreter covers
  the part of Joi's object validation the schemas use. Each schema gets a key-by-key statement
  of what it accepts, proved equivalent to the interpreter. Phone numbers must be exactly ten
  ASCII digits. Passwords must be at least eight UTF-16 code units long. Subscriptions must be
  one of three names. `favorite` defaults to false on create. On update, `''` and `null` are
  allowed for email and phone. The e-mail address grammar is a parameter. The
  `minDomainSegments: 2` rule is written out.
- **User model** (`UserModel`). This covers the user record, the `Subscription` enumeration
  and its string names (a proved bijection), and the defaults `starter`, `''` and null. It
  also covers Mongoose validation of the required `email` and `password` fields and the
  unique-email index, whose invariant `User.create` keeps. Registration maps the duplicate-key
  failure to 409 `Email in use`.

Quirks of the code that the model keeps:

- The auth middleware calls `next()` with a null user when the token verifies but no user
  has the token's id (middlewares/auth.js:17-18, 33).
- The ownership guard calls `next()` without attaching the contact it found to the request
  (middlewares/owner.js:7-11).
- The ownership guard answers 404 for a malformed contact id only when the lookup throws on
  it (middlewares/owner.js:12-14).
- The contact routes read and write the JSON file store directly. They do no pagination, no
  filtering by owner and no validation of the request body (routes/api/contacts.js).

Semantics of the libraries, as assumed here:

- Joi (version 17) refuses undeclared keys and refuses `''` for `Joi.string()` unless it is
  allowed.
- In Joi, `.allow(...)` values skip every other rule. `Joi.boolean()` also accepts the
  strings `true`/`false` in any letter case.
- With Joi's default options, validation reports only the first failing key (`abortEarly`),
  checking declared keys in order and undeclared keys after them. The registration route
  passes `{ abortEarly: false }` (routes/api/auth.js:22) and so would collect every failing
  key. The model reports the first failure, which differs from the route in one observable
  case (see "## Left out").
- Mongoose's `required` refuses a missing or empty string. Mongoose runs schema validation
  before the unique index is consulted.

## Model

| member | source | states |
|---|---|---|
| `Text.Split` | middlewares/auth.js:8 | `header.split(' ')` always yields at least one piece, and at most one more piece than there are characters |
| `Text.SplitJoin` | middlewares/auth.js:8 | joining the split pieces with the separator gives back the header |
| `Text.JoinSplit` | middlewares/auth.js:8 | splitting a join of separator-free pieces gives back those pieces, so split is a bijection onto separator-free lists |
| `Text.SplitPiecesAvoidSeparator` | middlewares/auth.js:8 | no split piece contains a space |
| `Text.SplitWithoutSeparator` | middlewares/auth.js:8 | a string without a space is a single piece |
| `Text.SplitAtFirstSeparator` | middlewares/auth.js:8 | the first piece ends at the first space, and the rest is the split of what follows |
| `Text.Utf16Length` | validate/users.js:5 | JavaScript string length is between the number of characters and twice that, and is zero only for `''` |
| `Text.Utf16LengthConcat` | validate/users.js:5 | the length of a concatenation is the sum of the lengths |
| `Text.Utf16LengthOfBmp` | validate/users.js:5 | a string with no character beyond U+FFFF (any ASCII password, say) has length equal to its number of characters, so `.min(8)` then means eight characters |
| `ContactStore.FindIndex` | models/contacts.js:22-23 | `findIndex` gives -1 exactly when no record has the id, and otherwise the first record whose `id` is the string |
| `ContactStore.WithId` | models/contacts.js:31 | the spread record has the body's keys plus `id`, every body value unchanged, and the given id unless the body has its own |
| `ContactStore.GetContactById` | models/contacts.js:14-18 | null exactly when no record has the id, and otherwise the first record with that id |
| `ContactStore.RemoveContact` | models/contacts.js:20-27 | an absent id gives null and an unchanged list; a present id removes exactly its first match, keeps the rest in order and returns the removed record |
| `ContactStore.AddContact` | models/contacts.js:29-35 | the list grows by one at the end, the old elements are unchanged, and the appended `{id, ...body}` record is returned |
| `ContactStore.UpdateContact` | models/contacts.js:37-44 | an absent id gives null and an unchanged list; otherwise only the first match is replaced by `{id: contactId, ...body}`, and the length is kept |
| `ContactStore.RemoveIsUndoneByReinsert` | models/contacts.js:22-26 | reinserting the removed record at its position restores the list |
| `ContactStore.RemoveLosesOnlyResult` | models/contacts.js:22-26 | as a multiset, the list loses exactly the returned record, and nothing when the id is absent |
| `ContactStore.RemoveThenGetFindsNothing` | models/contacts.js:14-26 | with unique ids, a lookup after removal finds nothing |
| `ContactStore.AddThenGet` | models/contacts.js:14-35 | after adding an id-less body under a fresh id, a lookup of that id returns the added record |
| `ContactStore.AddKeepsIdsUnique` | models/contacts.js:29-35 | adding an id-less body under a fresh id keeps record ids unique |
| `ContactStore.BodyIdOverridesFreshId` | models/contacts.js:31 | a body `id` replaces the generated id, so the new record may not be found under the fresh id |
| `ContactStore.UpdateThenGet` | models/contacts.js:14-44 | after a successful update with an id-less body, a lookup of the id returns the new record |
| `ContactStore.UpdateDropsMissingFields` | models/contacts.js:41 | update is a full replace: old fields absent from the body are gone |
| `ContactStore.UpdateKeepsOthers` | models/contacts.js:39-41 | every position other than the first match is unchanged by update |
| `ContactRoutes.ListAll` | routes/api/contacts.js:5-12 | GET `/` answers 200 with every stored record in order, unfiltered; a read failure is passed to `next` |
| `ContactRoutes.GetById` | routes/api/contacts.js:14-26 | 200 with the first record carrying the id, else 404 `Not found`; the file is unchanged |
| `ContactRoutes.Create` | routes/api/contacts.js:28-35 | the unvalidated body is appended under the fresh id and echoed back with 201 |
| `ContactRoutes.Delete` | routes/api/contacts.js:37-45 | the file loses the first match if any, and the reply is always `Contact deleted` |
| `ContactRoutes.Replace` | routes/api/contacts.js:47-55 | 201 with the replacement record and the updated file, or 201 `null` and an unchanged file when the id is absent |
| `ContactRoutes.DeleteReplyIgnoresOutcome` | routes/api/contacts.js:39-41 | deleting a present id and an absent one produce the same reply |
| `ContactRoutes.DeleteAbsentKeepsFile` | routes/api/contacts.js:40 | deleting an absent id leaves the file as it was |
| `ContactRoutes.CreateThenGet` | routes/api/contacts.js:14-35 | a posted contact is returned by the following GET with every posted field |
| `ContactRoutes.ReplaceThenGet` | routes/api/contacts.js:14-55 | a successful PUT with an id-less body is what the following GET returns |
| `AuthMiddleware.Caught` | middlewares/auth.js:19-31 | the two JWT error names give 401, `Not authorized` exactly on `/users/current` and `JWT token is not valid` elsewhere; any other error stalls |
| `AuthMiddleware.Authenticate` | middlewares/auth.js:6-34 | an empty token piece gives `No token provided`, before the scheme is looked at; a non-`Bearer` scheme gives `Token type is not valid!`; `next()` happens exactly when verify and lookup both succeed, with the lookup's possibly null user; an error thrown by verify or by the lookup is handled as `Caught` handles it (401 with URL-dependent wording for the two JWT names, no answer otherwise) |
| `AuthMiddleware.BearerHeaderParses` | middlewares/auth.js:8-13 | `Bearer <t>` with trailing space-separated pieces parses to scheme `Bearer` and token `t` |
| `AuthMiddleware.AcceptedHeaderShape` | middlewares/auth.js:8-13 | every header accepted as a bearer header has exactly that shape |
| `AuthMiddleware.RawHeader` | middlewares/auth.js:7 | a present header is used as sent; only a missing or empty header reads as `''` |
| `AuthMiddleware.Scheme` | middlewares/auth.js:8 | the scheme is a prefix of the header with no space in it, followed in the header by a space or by nothing, so it is the header up to its first space; it is the whole header exactly when the header has no space |
| `AuthMiddleware.TokenPiece` | middlewares/auth.js:8 | the token is empty for a header without a space; otherwise it follows the scheme and one space, contains no space, and is followed by a space or the end of the header, so it is the whole second space-separated piece |
| `AuthMiddleware.MissingOrEmptyToken` | middlewares/auth.js:7-9 | any header without a space, and any scheme followed by two spaces, leaves the token piece empty and is answered 401 `No token provided` |
| `AuthMiddleware.MissingHeaderIsEmpty` | middlewares/auth.js:7-9 | a missing header is treated as `''` and gets `No token provided` |
| `AuthMiddleware.BearerReachesNext` | middlewares/auth.js:15-33 | a well-formed bearer header reaches `next()` exactly when the token verifies and the lookup does not throw, including with a null user |
| `AuthMiddleware.BearerVerifyFailure` | middlewares/auth.js:15-30 | for a well-formed bearer header, an expired or malformed token gets 401 `Not authorized` exactly on `/users/current` and `JWT token is not valid` elsewhere; any other verify error gets no answer and no `next()` |
| `AuthMiddleware.UrlOnlyChangesWording` | middlewares/auth.js:21-30 | the URL never changes whether the middleware answers, stalls or proceeds, nor the status |
| `OwnerGuard.Caught` | middlewares/owner.js:12-17 | a thrown lookup gives 404 `Not Found` for a malformed id and 500 with the error message otherwise |
| `OwnerGuard.CheckContactOwner` | middlewares/owner.js:4-18 | `next()` exactly when the lookup on (contact id, user id) finds a record; a miss gives 404 `Not Found`; a 500 only for a well-formed id; a null user goes to the catch branch |
| `OwnerGuard.OthersContactsAreInvisible` | middlewares/owner.js:7-9 | the answer depends only on the acting user's own contacts, so another owner's contact looks missing |
| `OwnerGuard.StoreGuardNeverFails` | middlewares/owner.js:7-16 | over a concrete collection whose lookup fails only on an uncastable id, a signed-in user gets `next()` exactly for an owned, well-formed id, and 404 otherwise |
| `OwnerGuard.NullActorNeverProceeds` | middlewares/owner.js:7-16 | a null acting user never passes, and gets 500 exactly when the id is well formed |
| `JoiRules.CheckString` | validate/contacts.js:5-7 | a plain string rule accepts every string; `.email` accepts exactly the addresses the grammar accepts that have two or more domain labels; the phone pattern accepts exactly ten ASCII digits and otherwise fails with the pattern's message; `.min(n)` accepts exactly strings of `n` or more UTF-16 code units; an accepted string comes back unchanged |
| `JoiRules.CheckValue` | validate/contacts.js:4-18 | booleans accept booleans and boolean words and convert them; `valid` lists accept exactly their strings; allowed blanks pass unchecked; a non-string fails as such, `''` fails as empty, and any other string is decided by its string rule |
| `JoiRules.CheckField` | validate/contacts.js:4-8 | a missing key fails exactly when required and otherwise takes its default; a present key passes exactly when its value does |
| `JoiRules.CheckFieldsOk` | validate/contacts.js:3-9 | a schema's keys pass together exactly when each passes alone |
| `JoiRules.FirstFailureReported` | validate/contacts.js:3-9 | the first failing key in schema order is the reported error |
| `JoiRules.CheckFieldsOutput` | validate/contacts.js:3-9 | the validated object holds each key's converted value or default, and nothing else |
| `JoiRules.EmailOk` | validate/contacts.js:5-6 | an accepted address satisfies the e-mail grammar and contains a dot |
| `JoiRules.DomainSegmentsCount` | validate/contacts.js:6 | for an address `local@domain` with a single `@`, the domain segments counted are exactly the `.`-separated labels of `domain` |
| `JoiRules.EmailOkBySegments` | validate/contacts.js:6 | such an address passes `.email({ minDomainSegments: 2 })` exactly when the grammar accepts it and its domain has two or more labels |
| `JoiRules.SegmentsNeedDot` | validate/contacts.js:6 | two or more domain segments require a dot in the address |
| `JoiRules.Validate` | validate/contacts.js:3-18 | a body with a key the schema does not declare never passes; that key is reported only when every declared key passes; a field error always names a declared key |
| `JoiRules.ValidateOk` | validate/contacts.js:3-9 | a schema accepts exactly the bodies with no undeclared key whose declared keys all pass |
| `ContactSchemas.CreateAcceptsExactly` | validate/contacts.js:3-9 | create accepts exactly: name a non-empty string, email a valid address with two or more domain labels, phone absent or ten digits, favorite absent or boolean, nothing else |
| `ContactSchemas.UpdateAcceptsExactly` | validate/contacts.js:10-15 | update accepts exactly the same keys, all optional, with `''`/null allowed for email and phone; the empty body passes |
| `ContactSchemas.FavoriteAcceptsExactly` | validate/contacts.js:16-18 | the favorite schema accepts only an optional boolean `favorite` |
| `ContactSchemas.PhonePattern` | validate/contacts.js:7-13 | a non-empty phone passes exactly when it is ten ASCII digits, and otherwise fails with `Phone number must have 10 digits.`; update lets `''` and null through |
| `ContactSchemas.CreateReportsMissingNameFirst` | validate/contacts.js:4 | a missing name is the reported error whatever else the body holds |
| `ContactSchemas.CreateOutput` | validate/contacts.js:3-9 | a valid create body is returned with `favorite` defaulted to false, kept when it is a boolean, converted from `true`/`false` in any letter case when it is a string, and the other fields untouched |
| `UserSchemas.RegisterAcceptsExactly` | validate/users.js:3-6 | registration accepts exactly: email a valid address with two or more domain labels, a password string of eight or more code units, nothing else |
| `UserSchemas.RegisterRequiresBoth` | validate/users.js:4-5 | a missing email or password fails registration, the email first |
| `UserSchemas.ValidateSubscription` | validate/users.js:7 | a subscription passes exactly when it is absent or one of `starter`, `pro`, `business` |
| `UserSchemas.SubscriptionSchemaMatchesModel` | validate/users.js:7 | the schema's three names are exactly the user model's enumeration |
| `UserModel.SubscriptionName` | models/user.js:12-16 | each tier is stored under one of the enumeration's names, and that name parses back to the tier |
| `UserModel.ParseSubscription` | models/user.js:12-16 | a string names a tier exactly when it is `starter`, `pro` or `business` |
| `UserModel.SubscriptionRoundTrip` | models/user.js:12-16 | tier names and parsing are inverse in both directions |
| `UserModel.InvalidPaths` | models/user.js:2-16 | password and email fail exactly when missing or empty; subscription fails exactly when given and outside the enumeration |
| `UserModel.EmailInUse` | models/user.js:10 | the unique index fires exactly when some stored user has the email |
| `UserModel.Create` | models/user.js:2-25 | validation errors list every failing path, and the duplicate-key error fires exactly for a valid user with a taken email; neither changes the store; success appends one user with defaults `starter`, `''` and null |
| `UserModel.CreateKeepsEmailsUnique` | models/user.js:10 | creation preserves the unique-email invariant |
| `UserModel.CreatedSubscriptionIsNamed` | models/user.js:12-16 | a user with a requested tier is created only when that tier is one of `starter`, `pro`, `business`, and then exactly that tier is stored |
| `UserModel.RegistrationReply` | routes/api/auth.js:38-43 | a created user gives 201; the duplicate-key failure, and only it, gives 409 `Email in use`; a validation failure sends nothing |
| `UserModel.SecondRegistrationConflicts` | models/user.js:7-11 | registering a taken email again fails on the unique index, leaves the users unchanged and answers 409 `Email in use` |

## Left out

- File I/O in the contact store: `readFile`, `JSON.parse` and the un-awaited `writeFile`. The file is the list itself. A read or parse failure is an `Unreadable` file whose error the handlers pass to `next`. A failed write, which the source never awaits, is not modelled.
- uuid v1 generation: it is a `freshId` parameter. Freshness is assumed only by the lemmas that need it.
- JSON numbers are opaque reals, and key order inside objects is not modelled. Joi therefore reports an undeclared key as `UnknownKey` without naming it.
- `jwt.verify` with the process secret, `User.findById`, `Contact.findOne` on the Mongoose contact model and `isValidObjectId`: these are function parameters. The contact model behind the guard is not part of this model.
- Joi's e-mail grammar (and its top-level-domain list) is a `grammar` parameter. The default error message texts of Joi and Mongoose are reduced to issue kinds and failing paths. Only the custom phone message is kept verbatim.
- `JoiRules.CheckValue`: lower-cases ASCII letters only, where Joi uses full Unicode lower-casing. This is exact for recognising `true`/`false`, because no other character lower-cases to those letters.
- `JoiRules.EmailOk`: counts domain labels on the address as written. Joi counts them after converting the domain through the WHATWG URL parser, which turns the full stops U+3002, U+FF0E and U+FF61 into `.`. So an address such as `a@example。com` is refused here but accepted by Joi. The model's grammar parameter cannot restore this, because the label count is applied in addition to it.
- `OwnerGuard.NullUserMessage`: the 500 body for a null acting user carries the TypeError text of Node.js 16.9 and later. Older Node.js versions word it `Cannot read property '_id' of null`.
- Collecting every validation error at registration (`abortEarly: false`, routes/api/auth.js:22-25): the route joins all Joi messages into the thrown error, and answers 409 `Email in use` whenever that text contains `E11000 duplicate key error` (line 40). Joi's message for an undeclared key quotes the key, so a body with a key named `E11000 duplicate key error` gets 409 from the route. The model keeps issue kinds rather than message texts and reports the first failure, so it sends nothing for such a body.
- The `console.log` of the URL in the auth middleware, and Express's handling of a middleware that neither answers nor calls `next` (the request is left hanging): the model reports the latter as `Stall`.
- Registration, login, logout, current-user, subscription and avatar handlers, apart from the duplicate-email-to-409 mapping: they are calls into bcrypt, jsonwebtoken, gravatar, Jimp and the file system.
- Application wiring, static files, logging, CORS, the error-handling middleware and server start-up: these are framework and I/O concerns.
- Concurrent requests: each operation is one sequential step on the stored state.

=== FILE: auth_middleware.dfy ===
/**
 * The bearer-token middleware: parse the `Authorization` header, verify the token,
 * load the user it names, and either answer 401, pass control on, or do neither.
 * Token verification and the user lookup are parameters standing for `jwt.verify`
 * with the process secret and for `User.findById`.
 */
module AuthMiddleware {
  import opened Base
  import opened Json
  import opened Text
  import opened UserModel

  /** An exception as the catch block sees it: only its `name` is inspected. */
  datatype Thrown = Thrown(name: string, message: string)

  /** `jwt.verify(token, secret)`: the payload's `id`, or the error it threw. */
  datatype Verified = Payload(id: string) | VerifyThrew(thrown: Thrown)

  /** `await User.findById(id)`: the user document or null, or the error it threw. */
  datatype Lookup = Loaded(user: Option<User>) | LookupThrew(thrown: Thrown)

  /**
   * What the middleware did: answered (and stopped), called `next()` with `req.user`
   * set, or returned the caught error without answering or calling `next`.
   */
  datatype Outcome = Reject(response: Response) | Next(user: Option<User>) | Stall(thrown: Thrown)

  const CurrentUserUrl := "/users/current"

  /** `req.headers.authorization || ''`: a present header is kept as sent, and only a missing or empty one reads as `""`. */
  function RawHeader(header: Option<string>): (r: string)
    ensures r == "" <==> header.None? || header == Some("")
    ensures header.Some? ==> r == header.value
  {
    if header.Some? then header.value else ""
  }

  /**
   * The first piece of `header.split(' ')`: the scheme. It is the header up to its first
   * space, and the whole header when there is no space.
   */
  function Scheme(raw: string): (r: string)
    ensures ' ' !in r
    ensures r <= raw
    ensures r == raw <==> ' ' !in raw
    ensures |r| < |raw| ==> raw[|r|] == ' '
  {
    SplitPiecesAvoidSeparator(raw, ' ');
    SplitJoin(raw, ' ');
    var p := Split(raw, ' ');
    assert |p| >= 2 ==> Join(p, ' ') == p[0] + [' '] + Join(p[1..], ' ');
    if ' ' in raw then Split(raw, ' ')[0]
    else SplitWithoutSeparator(raw, ' '); Split(raw, ' ')[0]
  }

  /**
   * The second piece of `header.split(' ')`, with a missing piece read as `""` (both are falsy).
   * The token is everything between the first space and the second space (or the end).
   */
  function TokenPiece(raw: string): (r: string)
    ensures ' ' !in r
    ensures ' ' !in raw ==> r == ""
    ensures ' ' in raw ==>
      && Scheme(raw) + [' '] + r <= raw
      && (|Scheme(raw)| + 1 + |r| == |raw| || raw[|Scheme(raw)| + 1 + |r|] == ' ')
  {
    var pieces := Split(raw, ' ');
    SplitPiecesAvoidSeparator(raw, ' ');
    SplitJoin(raw, ' ');
    if |pieces| >= 2 then
      assert Join(pieces, ' ') == pieces[0] + [' '] + Join(pieces[1..], ' ');
      assert pieces[1..][0] == pieces[1];
      var q := pieces[1..];
      assert |q| >= 2 ==> Join(q, ' ') == q[0] + [' '] + Join(q[1..], ' ');
      pieces[1]
    else
      ""
  }

  /** The two JWT error names the catch block turns into a 401. */
  predicate IsJwtFailure(t: Thrown)
  {
    t.name == "TokenExpiredError" || t.name == "JsonWebTokenError"
  }

  /** The catch block: a JWT failure answers 401 with a message that depends only on the URL. */
  function Caught(t: Thrown, url: string): (o: Outcome)
    ensures IsJwtFailure(t) ==> o.Reject? && o.response.status == 401
    ensures IsJwtFailure(t) ==>
      (o.response.body == Message("Not authorized") <==> url == CurrentUserUrl)
    ensures IsJwtFailure(t) ==>
      (o.response.body == Message("JWT token is not valid") <==> url != CurrentUserUrl)
    ensures !IsJwtFailure(t) ==> o == Stall(t)
  {
    if IsJwtFailure(t) then
      if url == CurrentUserUrl then Reject(Response(401, Message("Not authorized")))
      else Reject(Response(401, Message("JWT token is not valid")))
    else Stall(t)
  }

  /** `authMiddleware(req, res, next)`. */
  function Authenticate(header: Option<string>, url: string, verify: string -> Verified, findById: string -> Lookup): (o: Outcome)
    ensures var raw := RawHeader(header);
      o == Reject(Response(401, Message("No token provided"))) <==> TokenPiece(raw) == ""
    ensures var raw := RawHeader(header);
      o == Reject(Response(401, Message("Token type is not valid!"))) <==> TokenPiece(raw) != "" && Scheme(raw) != "Bearer"
    ensures o.Reject? ==> o.response.status == 401
    ensures var raw := RawHeader(header);
      o.Next? <==>
        && TokenPiece(raw) != "" && Scheme(raw) == "Bearer"
        && verify(TokenPiece(raw)).Payload?
        && findById(verify(TokenPiece(raw)).id).Loaded?
    ensures o.Next? ==> o.user == findById(verify(TokenPiece(RawHeader(header))).id).user
    ensures var raw := RawHeader(header);
      TokenPiece(raw) != "" && Scheme(raw) == "Bearer" && verify(TokenPiece(raw)).VerifyThrew? ==>
        o == Caught(verify(TokenPiece(raw)).thrown, url)
    ensures var raw := RawHeader(header);
      && TokenPiece(raw) != "" && Scheme(raw) == "Bearer"
      && verify(TokenPiece(raw)).Payload? && findById(verify(TokenPiece(raw)).id).LookupThrew? ==>
        o == Caught(findById(verify(TokenPiece(raw)).id).thrown, url)
    ensures o.Stall? ==> !IsJwtFailure(o.thrown)
  {
    var raw := RawHeader(header);
    var scheme := Scheme(raw);
    var token := TokenPiece(raw);
    if token == "" then Reject(Response(401, Message("No token provided")))
    else if scheme != "Bearer" then Reject(Response(401, Message("Token type is not valid!")))
    else
      match verify(token)
      case VerifyThrew(t) => Caught(t, url)
      case Payload(id) =>
        match findById(id)
        case LookupThrew(t) => Caught(t, url)
        case Loaded(user) => Next(user)
  }

  /**
   * A header `Bearer <t>` followed by nothing or by a space and anything parses to
   * scheme `Bearer` and token `t`, when `t` is non-empty and has no space.
   */
  lemma BearerHeaderParses(t: string, rest: string)
    requires t != "" && ' ' !in t
    requires rest == "" || rest[0] == ' '
    ensures Scheme("Bearer " + t + rest) == "Bearer"
    ensures TokenPiece("Bearer " + t + rest) == t
  {
    var raw := "Bearer " + t + rest;
    assert raw == "Bearer" + [' '] + (t + rest);
    SplitAtFirstSeparator("Bearer", ' ', t + rest);
    if rest == "" {
      assert t + rest == t;
      SplitWithoutSeparator(t, ' ');
    } else {
      assert t + rest == t + [' '] + rest[1..];
      SplitAtFirstSeparator(t, ' ', rest[1..]);
    }
  }

  /** Conversely, every header the parser accepts as a bearer token has that shape. */
  lemma AcceptedHeaderShape(raw: string)
    requires TokenPiece(raw) != "" && Scheme(raw) == "Bearer"
    ensures exists rest :: (rest == "" || rest[0] == ' ') && raw == "Bearer " + TokenPiece(raw) + rest
    ensures ' ' !in TokenPiece(raw)
  {
    var pieces := Split(raw, ' ');
    SplitJoin(raw, ' ');
    SplitPiecesAvoidSeparator(raw, ' ');
    assert pieces[1] == TokenPiece(raw);
    var rest := if |pieces| == 2 then "" else [' '] + Join(pieces[2..], ' ');
    assert pieces[1..][1..] == pieces[2..];
    assert raw == "Bearer " + TokenPiece(raw) + rest;
  }

  /**
   * A header with no space (`"Basic"`), or one whose scheme is followed by two spaces,
   * leaves the token piece empty, and the request is answered `No token provided`.
   */
  lemma MissingOrEmptyToken(s: string, x: string, url: string, verify: string -> Verified, findById: string -> Lookup)
    requires ' ' !in s
    ensures TokenPiece(s) == ""
    ensures TokenPiece(s + "  " + x) == ""
    ensures Authenticate(Some(s), url, verify, findById) == Reject(Response(401, Message("No token provided")))
    ensures Authenticate(Some(s + "  " + x), url, verify, findById) == Reject(Response(401, Message("No token provided")))
  {
    SplitWithoutSeparator(s, ' ');
    assert s + "  " + x == s + [' '] + ([' '] + x);
    SplitAtFirstSeparator(s, ' ', [' '] + x);
    assert [' '] + x == "" + [' '] + x;
    SplitAtFirstSeparator("", ' ', x);
  }

  /** A missing header and an empty one are treated alike: both answer `No token provided`. */
  lemma MissingHeaderIsEmpty(url: string, verify: string -> Verified, findById: string -> Lookup)
    ensures Authenticate(None, url, verify, findById) == Authenticate(Some(""), url, verify, findById)
    ensures Authenticate(None, url, verify, findById) == Reject(Response(401, Message("No token provided")))
  {
  }

  /**
   * A well-formed bearer header reaches `next()` exactly when the token verifies and
   * the lookup does not throw; the acting user may be null.
   */
  lemma {:induction false} BearerReachesNext(t: string, rest: string, url: string, verify: string -> Verified, findById: string -> Lookup)
    requires t != "" && ' ' !in t
    requires rest == "" || rest[0] == ' '
    ensures var o := Authenticate(Some("Bearer " + t + rest), url, verify, findById);
      && (o.Next? <==> verify(t).Payload? && findById(verify(t).id).Loaded?)
      && (verify(t).Payload? && findById(verify(t).id) == Loaded(None) ==> o == Next(None))
  {
    BearerHeaderParses(t, rest);
  }

  /**
   * For a well-formed bearer header, an expired or malformed token answers 401 with
   * `Not authorized` exactly on `/users/current` and `JWT token is not valid` elsewhere,
   * and any other verification error leaves the request without answer or `next()`.
   */
  lemma {:induction false} BearerVerifyFailure(t: string, rest: string, url: string, verify: string -> Verified, findById: string -> Lookup)
    requires t != "" && ' ' !in t
    requires rest == "" || rest[0] == ' '
    requires verify(t).VerifyThrew?
    ensures var o := Authenticate(Some("Bearer " + t + rest), url, verify, findById);
      && (IsJwtFailure(verify(t).thrown) ==>
            o == Reject(Response(401, Message(if url == CurrentUserUrl then "Not authorized" else "JWT token is not valid"))))
      && (!IsJwtFailure(verify(t).thrown) ==> o == Stall(verify(t).thrown))
  {
    BearerHeaderParses(t, rest);
  }

  /** The URL changes only the wording of a JWT 401, never whether or how the middleware answers. */
  lemma UrlOnlyChangesWording(header: Option<string>, url1: string, url2: string, verify: string -> Verified, findById: string -> Lookup)
    ensures var o1 := Authenticate(header, url1, verify, findById);
      var o2 := Authenticate(header, url2, verify, findById);
      && o1.Reject? == o2.Reject? && o1.Next? == o2.Next? && o1.Stall? == o2.Stall?
      && (o1.Reject? ==> o1.response.status == o2.response.status)
      && (o1.Next? ==> o1 == o2)
  {
  }
}

=== FILE: base.dfy ===
/** Failure-carrying wrappers used throughout the model. */
module Base {

  /** A value that may be missing: JavaScript's `null`/`undefined` at the model's boundaries. */
  datatype Option<+T> = None | Some(value: T)

  /** Either a computed value or the error that replaced it. */
  datatype Result<+T, +E> = Ok(value: T) | Err(error: E)
}

=== FILE: contact_routes.dfy ===
/**
 * The five `/api/contacts` handlers. Each reads the contacts file, calls the store
 * and answers; a failure to read or parse the file is passed on with `next(error)`.
 */
module ContactRoutes {
  import opened Base
  import opened Json
  import opened ContactStore

  /** The contacts file: parsed contents, or the error reading or parsing it raised. */
  datatype Disk = Readable(contacts: seq<Contact>) | Unreadable(error: string)

  /** What a handler does: send a response, or hand an error to the next error middleware. */
  datatype Reply = Send(response: Response) | Forward(error: string)

  /** The file after the request and the handler's reply. */
  datatype Handled = Handled(disk: Disk, reply: Reply)

  /** The JSON array `res.json(contacts)` sends. */
  function ContactsJson(cs: seq<Contact>): (v: Value)
    ensures v.Arr? && |v.items| == |cs|
    ensures forall i :: 0 <= i < |cs| ==> v.items[i] == Obj(cs[i])
  {
    Arr(seq(|cs|, i requires 0 <= i < |cs| => Obj(cs[i])))
  }

  /** A stored record or JSON `null`, as `res.json(x)` serializes either. */
  function OrNull(c: Option<Contact>): Value
  {
    if c.Some? then Obj(c.value) else Null
  }

  /** GET `/`: 200 with every stored record, in file order, unfiltered. */
  function ListAll(d: Disk): (h: Handled)
    ensures h.disk == d
    ensures d.Unreadable? ==> h.reply == Forward(d.error)
    ensures d.Readable? ==>
      && h.reply.Send? && h.reply.response.status == 200
      && h.reply.response.body.Arr? && |h.reply.response.body.items| == |d.contacts|
      && forall i :: 0 <= i < |d.contacts| ==> h.reply.response.body.items[i] == Obj(d.contacts[i])
  {
    match d
    case Unreadable(e) => Handled(d, Forward(e))
    case Readable(cs) => Handled(d, Send(JsonOk(ContactsJson(cs))))
  }

  /** GET `/:contactId`: 200 with the first record with that id, else 404 `Not found`. */
  function GetById(d: Disk, id: string): (h: Handled)
    ensures h.disk == d
    ensures d.Unreadable? ==> h.reply == Forward(d.error)
    ensures d.Readable? && Absent(d.contacts, id) ==> h.reply == Send(Response(404, Message("Not found")))
    ensures d.Readable? && !Absent(d.contacts, id) ==>
      exists i :: FirstMatch(d.contacts, id, i) && h.reply == Send(Response(200, Obj(d.contacts[i])))
  {
    match d
    case Unreadable(e) => Handled(d, Forward(e))
    case Readable(cs) =>
      var found := GetContactById(cs, id);
      if found.Some? then Handled(d, Send(JsonOk(Obj(found.value))))
      else Handled(d, Send(Response(404, Message("Not found"))))
  }

  /** POST `/`: the body is stored unvalidated under a fresh id and echoed back with 201. */
  function Create(d: Disk, body: Object, freshId: string): (h: Handled)
    ensures d.Unreadable? ==> h == Handled(d, Forward(d.error))
    ensures d.Readable? ==>
      && h.disk == Readable(d.contacts + [WithId(freshId, body)])
      && h.reply == Send(Response(201, Obj(WithId(freshId, body))))
  {
    match d
    case Unreadable(e) => Handled(d, Forward(e))
    case Readable(cs) =>
      var step := AddContact(cs, body, freshId);
      Handled(Readable(step.store), Send(Response(201, OrNull(step.result))))
  }

  /** DELETE `/:contactId`: removes the first match if any, and always answers `Contact deleted`. */
  function Delete(d: Disk, id: string): (h: Handled)
    ensures d.Unreadable? ==> h == Handled(d, Forward(d.error))
    ensures d.Readable? ==> h.reply == Send(JsonOk(Message("Contact deleted")))
    ensures d.Readable? ==> h.disk == Readable(RemoveContact(d.contacts, id).store)
  {
    match d
    case Unreadable(e) => Handled(d, Forward(e))
    case Readable(cs) => Handled(Readable(RemoveContact(cs, id).store), Send(JsonOk(Message("Contact deleted"))))
  }

  /** PUT `/:contactId`: full replace of the first match, answered with 201 and the new record, or 201 `null`. */
  function Replace(d: Disk, id: string, body: Object): (h: Handled)
    ensures d.Unreadable? ==> h == Handled(d, Forward(d.error))
    ensures d.Readable? && Absent(d.contacts, id) ==> h == Handled(d, Send(Response(201, Null)))
    ensures d.Readable? && !Absent(d.contacts, id) ==>
      exists i :: FirstMatch(d.contacts, id, i) &&
        h == Handled(Readable(d.contacts[i := WithId(id, body)]), Send(Response(201, Obj(WithId(id, body)))))
  {
    match d
    case Unreadable(e) => Handled(d, Forward(e))
    case Readable(cs) =>
      var step := UpdateContact(cs, id, body);
      Handled(Readable(step.store), Send(Response(201, OrNull(step.result))))
  }

  /** The DELETE reply carries no information: a present id and an absent one get the same answer. */
  lemma DeleteReplyIgnoresOutcome(cs: seq<Contact>, id1: string, id2: string)
    ensures Delete(Readable(cs), id1).reply == Delete(Readable(cs), id2).reply
  {
  }

  /** Deleting an id that is absent leaves the file as it was. */
  lemma DeleteAbsentKeepsFile(cs: seq<Contact>, id: string)
    requires Absent(cs, id)
    ensures Delete(Readable(cs), id).disk == Readable(cs)
  {
  }

  /**
   * Round trip through the API: a contact posted with an id-less body under a fresh
   * id is what GET `/:id` then answers with, and it carries every posted field. The
   * store's file write is not awaited, so this assumes the write finished before the GET.
   */
  lemma CreateThenGet(cs: seq<Contact>, body: Object, freshId: string)
    requires "id" !in body
    requires Absent(cs, freshId)
    ensures var created := Create(Readable(cs), body, freshId);
      var fetched := GetById(created.disk, freshId);
      && created.reply.Send? && created.reply.response.status == 201
      && fetched.reply == Send(Response(200, created.reply.response.body))
      && fetched.reply.response.body.Obj?
      && forall k :: k in body ==> k in fetched.reply.response.body.fields && fetched.reply.response.body.fields[k] == body[k]
  {
  }

  /**
   * A PUT with an id-less body, when it finds the record, is seen by the next GET,
   * once the un-awaited file write has finished.
   */
  lemma {:induction false} ReplaceThenGet(cs: seq<Contact>, id: string, body: Object)
    requires "id" !in body
    requires !Absent(cs, id)
    ensures GetById(Replace(Readable(cs), id, body).disk, id).reply == Send(Response(200, Obj(WithId(id, body))))
  {
    UpdateThenGet(cs, id, body);
  }
}

=== FILE: contact_schemas.dfy ===
/** The three contact body schemas and what each accepts, stated key by key. */
module ContactSchemas {
  import opened Base
  import opened Json
  import opened Text
  import opened JoiRules

  const PhoneMessage := "Phone number must have 10 digits."

  /** `createContactShema`: name and email required, phone optional, favorite defaulting to false. */
  const CreateContactSchema: seq<Field> := [
    Field("name", StringKey(AnyString, false), true, None),
    Field("email", StringKey(Email, false), true, None),
    Field("phone", StringKey(TenDigits(PhoneMessage), false), false, None),
    Field("favorite", BooleanKey, false, Some(Bool(false)))
  ]

  /** `updateContactSchema`: every key optional; email and phone may be `''` or null. */
  const UpdateContactSchema: seq<Field> := [
    Field("name", StringKey(AnyString, false), false, None),
    Field("email", StringKey(Email, true), false, None),
    Field("phone", StringKey(TenDigits(PhoneMessage), true), false, None),
    Field("favorite", BooleanKey, false, None)
  ]

  /** `updateContactFavoriteSchema`: only an optional boolean favorite. */
  const UpdateFavoriteSchema: seq<Field> := [
    Field("favorite", BooleanKey, false, None)
  ]

  /** A phone string the pattern accepts. */
  predicate PhoneOk(v: Value)
  {
    v.Str? && IsTenDigits(v.s)
  }

  /** What the create schema accepts, written out per key. */
  predicate CreateAccepts(body: Object, grammar: string -> bool)
  {
    && body.Keys <= {"name", "email", "phone", "favorite"}
    && "name" in body && NonEmptyString(body["name"])
    && "email" in body && NonEmptyString(body["email"]) && EmailOk(grammar, body["email"].s)
    && ("phone" in body ==> PhoneOk(body["phone"]))
    && ("favorite" in body ==> BooleanLike(body["favorite"]))
  }

  /** What the update schema accepts, written out per key. */
  predicate UpdateAccepts(body: Object, grammar: string -> bool)
  {
    && body.Keys <= {"name", "email", "phone", "favorite"}
    && ("name" in body ==> NonEmptyString(body["name"]))
    && ("email" in body ==> Blank(body["email"]) || (NonEmptyString(body["email"]) && EmailOk(grammar, body["email"].s)))
    && ("phone" in body ==> Blank(body["phone"]) || PhoneOk(body["phone"]))
    && ("favorite" in body ==> BooleanLike(body["favorite"]))
  }

  /** What the favorite schema accepts. */
  predicate FavoriteAccepts(body: Object)
  {
    && body.Keys <= {"favorite"}
    && ("favorite" in body ==> BooleanLike(body["favorite"]))
  }

  lemma CreateKeys()
    ensures Keys(CreateContactSchema) == {"name", "email", "phone", "favorite"}
    ensures DistinctKeys(CreateContactSchema)
  {
    var s := CreateContactSchema;
    assert s[0].key == "name" && s[1].key == "email" && s[2].key == "phone" && s[3].key == "favorite";
  }

  lemma UpdateKeys()
    ensures Keys(UpdateContactSchema) == {"name", "email", "phone", "favorite"}
    ensures DistinctKeys(UpdateContactSchema)
  {
    var s := UpdateContactSchema;
    assert s[0].key == "name" && s[1].key == "email" && s[2].key == "phone" && s[3].key == "favorite";
  }

  /** The create schema accepts a body exactly when `CreateAccepts` holds of it. */
  lemma CreateAcceptsExactly(body: Object, grammar: string -> bool)
    ensures Validate(CreateContactSchema, body, grammar).Ok? <==> CreateAccepts(body, grammar)
  {
    ValidateOk(CreateContactSchema, body, grammar);
    CreateKeys();
  }

  /** The update schema accepts a body exactly when `UpdateAccepts` holds of it; the empty body passes. */
  lemma UpdateAcceptsExactly(body: Object, grammar: string -> bool)
    ensures Validate(UpdateContactSchema, body, grammar).Ok? <==> UpdateAccepts(body, grammar)
    ensures Validate(UpdateContactSchema, map[], grammar).Ok?
  {
    ValidateOk(UpdateContactSchema, body, grammar);
    ValidateOk(UpdateContactSchema, map[], grammar);
    UpdateKeys();
  }

  /** The favorite schema accepts a body exactly when `FavoriteAccepts` holds of it. */
  lemma FavoriteAcceptsExactly(body: Object, grammar: string -> bool)
    ensures Validate(UpdateFavoriteSchema, body, grammar).Ok? <==> FavoriteAccepts(body)
  {
    ValidateOk(UpdateFavoriteSchema, body, grammar);
    assert Keys(UpdateFavoriteSchema) == {"favorite"};
  }

  /**
   * A non-empty phone string passes exactly when it is ten ASCII digits, and is
   * otherwise refused with the custom message; on update `''` and null skip the check.
   */
  lemma PhonePattern(s: string, grammar: string -> bool)
    requires s != ""
    ensures var r := CheckValue(CreateContactSchema[2].rule, Str(s), grammar);
      IsTenDigits(s) ==> r == Ok(Str(s))
    ensures var r := CheckValue(CreateContactSchema[2].rule, Str(s), grammar);
      !IsTenDigits(s) ==> r == Err(PatternMismatch("Phone number must have 10 digits."))
    ensures CheckValue(UpdateContactSchema[2].rule, Str(""), grammar).Ok?
    ensures CheckValue(UpdateContactSchema[2].rule, Null, grammar).Ok?
    ensures CheckValue(CreateContactSchema[2].rule, Str(""), grammar) == Err(EmptyString)
  {
  }

  /** A missing name is reported first, whatever else the body holds. */
  lemma CreateReportsMissingNameFirst(body: Object, grammar: string -> bool)
    requires "name" !in body
    ensures Validate(CreateContactSchema, body, grammar) == Err(FieldIssue("name", Required))
  {
  }

  /**
   * A valid create body comes back with `favorite` filled in as false when absent,
   * kept when it is a boolean, converted from `'true'`/`'false'` (any case) when it is
   * a string, and name, email and phone untouched.
   */
  lemma CreateOutput(body: Object, grammar: string -> bool)
    requires CreateAccepts(body, grammar)
    ensures var r := Validate(CreateContactSchema, body, grammar);
      && r.Ok?
      && r.value.Keys == body.Keys + {"favorite"}
      && r.value["name"] == body["name"] && r.value["email"] == body["email"]
      && ("phone" in body ==> r.value["phone"] == body["phone"])
      && ("favorite" !in body ==> r.value["favorite"] == Bool(false))
      && ("favorite" in body ==> r.value["favorite"].Bool?)
      && ("favorite" in body && body["favorite"].Bool? ==> r.value["favorite"] == body["favorite"])
      && ("favorite" in body && body["favorite"].Str? ==>
            r.value["favorite"] == Bool(AsciiLower(body["favorite"].s) == "true"))
  {
    CreateAcceptsExactly(body, grammar);
    CreateKeys();
    var s := CreateContactSchema;
    CheckFieldsOutput(s, body, grammar);
    CheckFieldsOk(s, body, grammar);
    assert CheckField(s[0], body, grammar).Ok?;
    assert CheckField(s[1], body, grammar).Ok?;
    assert CheckField(s[2], body, grammar).Ok?;
    assert CheckField(s[3], body, grammar).Ok?;
  }
}

=== FILE: contact_store.dfy ===
/**
 * The JSON-file contact store: an ordered list of contact records read from and
 * written back to one file. The file is modelled as the list itself; each operation
 * maps the list before the call to the list after it and the value it returns.
 */
module ContactStore {
  import opened Base
  import opened Json

  /** A stored contact: whatever JSON object was posted, plus an `id` key. */
  type Contact = Object

  /** `item.id === contactId`: the record has an `id` key holding exactly that string. */
  predicate HasId(c: Contact, id: string)
  {
    "id" in c && c["id"] == Str(id)
  }

  /** Position `i` holds the first record with the given id. */
  ghost predicate FirstMatch(cs: seq<Contact>, id: string, i: int)
  {
    && 0 <= i < |cs|
    && HasId(cs[i], id)
    && forall j :: 0 <= j < i ==> !HasId(cs[j], id)
  }

  /** No record carries the id. */
  ghost predicate Absent(cs: seq<Contact>, id: string)
  {
    forall j :: 0 <= j < |cs| ==> !HasId(cs[j], id)
  }

  /** No two records share an id (what fresh ids keep true when bodies carry none). */
  ghost predicate UniqueIds(cs: seq<Contact>)
  {
    forall i, j, id :: 0 <= i < j < |cs| && HasId(cs[i], id) ==> !HasId(cs[j], id)
  }

  /** `contacts.findIndex(item => item.id === contactId)`: the first match, or -1. */
  function FindIndex(cs: seq<Contact>, id: string): (r: int)
    ensures -1 <= r < |cs|
    ensures r == -1 <==> Absent(cs, id)
    ensures r != -1 ==> FirstMatch(cs, id, r)
  {
    if |cs| == 0 then -1
    else if HasId(cs[0], id) then 0
    else
      var r := FindIndex(cs[1..], id);
      if r == -1 then -1 else r + 1
  }

  /** `{ id, ...body }`: the body's fields laid over an `id` field; a body `id` wins. */
  function WithId(id: string, body: Object): (c: Contact)
    ensures c.Keys == body.Keys + {"id"}
    ensures forall k :: k in body ==> c[k] == body[k]
    ensures "id" !in body ==> HasId(c, id)
  {
    map["id" := Str(id)] + body
  }

  /** The list after an operation and the value the operation returned. */
  datatype Step = Step(store: seq<Contact>, result: Option<Contact>)

  /** `getContactById`: the first record with the id, or null. */
  function GetContactById(cs: seq<Contact>, id: string): (r: Option<Contact>)
    ensures r.None? <==> Absent(cs, id)
    ensures r.Some? ==> HasId(r.value, id) && exists i :: FirstMatch(cs, id, i) && cs[i] == r.value
  {
    var i := FindIndex(cs, id);
    if i == -1 then None else Some(cs[i])
  }

  /** `removeContact`: splice out the first record with the id and return it; null (and no write) when none. */
  function RemoveContact(cs: seq<Contact>, id: string): (r: Step)
    ensures r.result.None? <==> Absent(cs, id)
    ensures r.result.None? ==> r.store == cs
    ensures r.result.Some? ==>
      exists i :: FirstMatch(cs, id, i) && r.result.value == cs[i] && r.store == cs[..i] + cs[i + 1..]
    ensures |r.store| == if r.result.Some? then |cs| - 1 else |cs|
  {
    var i := FindIndex(cs, id);
    if i == -1 then Step(cs, None)
    else Step(cs[..i] + cs[i + 1..], Some(cs[i]))
  }

  /** `addContact`: append `{ id: freshId, ...body }` and return it. `freshId` stands for `uuidv1()`. */
  function AddContact(cs: seq<Contact>, body: Object, freshId: string): (r: Step)
    ensures |r.store| == |cs| + 1
    ensures r.store[..|cs|] == cs
    ensures r.result == Some(r.store[|cs|])
    ensures r.store[|cs|] == WithId(freshId, body)
  {
    var c := WithId(freshId, body);
    Step(cs + [c], Some(c))
  }

  /** `updateContact`: replace the first record with the id by `{ id: contactId, ...body }`; null when none. */
  function UpdateContact(cs: seq<Contact>, id: string, body: Object): (r: Step)
    ensures r.result.None? <==> Absent(cs, id)
    ensures r.result.None? ==> r.store == cs
    ensures r.result.Some? ==>
      exists i :: FirstMatch(cs, id, i) && r.result.value == WithId(id, body) && r.store == cs[i := WithId(id, body)]
    ensures |r.store| == |cs|
  {
    var i := FindIndex(cs, id);
    if i == -1 then Step(cs, None)
    else Step(cs[i := WithId(id, body)], Some(WithId(id, body)))
  }

  /** Removal loses exactly the returned record: putting it back at its position restores the list. */
  lemma RemoveIsUndoneByReinsert(cs: seq<Contact>, id: string)
    ensures var r := RemoveContact(cs, id);
      r.result.Some? ==> exists i :: 0 <= i <= |r.store| && cs == r.store[..i] + [r.result.value] + r.store[i..]
  {
    var r := RemoveContact(cs, id);
    if r.result.Some? {
      var i := FindIndex(cs, id);
      assert r.store[..i] == cs[..i];
      assert r.store[i..] == cs[i + 1..];
      assert cs == cs[..i] + [cs[i]] + cs[i + 1..];
    }
  }

  /** As a multiset, the list loses the returned record and nothing else. */
  lemma RemoveLosesOnlyResult(cs: seq<Contact>, id: string)
    ensures var r := RemoveContact(cs, id);
      multiset(cs) == multiset(r.store) + (if r.result.Some? then multiset{r.result.value} else multiset{})
  {
    var r := RemoveContact(cs, id);
    if r.result.Some? {
      var i := FindIndex(cs, id);
      assert cs == cs[..i] + [cs[i]] + cs[i + 1..];
    }
  }

  /** When ids are unique, a removed id is gone: a following lookup finds nothing. */
  lemma RemoveThenGetFindsNothing(cs: seq<Contact>, id: string)
    requires UniqueIds(cs)
    ensures GetContactById(RemoveContact(cs, id).store, id) == None
  {
  }

  /** A contact added with a fresh id and an id-less body is what a lookup of that id returns. */
  lemma AddThenGet(cs: seq<Contact>, body: Object, freshId: string)
    requires "id" !in body
    requires Absent(cs, freshId)
    ensures var r := AddContact(cs, body, freshId);
      GetContactById(r.store, freshId) == r.result
  {
  }

  /** Adding with a fresh id and an id-less body keeps ids unique. */
  lemma AddKeepsIdsUnique(cs: seq<Contact>, body: Object, freshId: string)
    requires UniqueIds(cs)
    requires "id" !in body
    requires Absent(cs, freshId)
    ensures UniqueIds(AddContact(cs, body, freshId).store)
  {
  }

  /** A body that carries its own `id` overrides the generated one, so the new record need not have `freshId`. */
  lemma BodyIdOverridesFreshId(cs: seq<Contact>, body: Object, freshId: string)
    requires "id" in body
    ensures AddContact(cs, body, freshId).result.value["id"] == body["id"]
    ensures body["id"] != Str(freshId) ==> !HasId(AddContact(cs, body, freshId).result.value, freshId)
  {
  }

  /** After a successful update with an id-less body, looking up the id returns the new record. */
  lemma {:induction false} UpdateThenGet(cs: seq<Contact>, id: string, body: Object)
    requires "id" !in body
    ensures var r := UpdateContact(cs, id, body);
      r.result.Some? ==> GetContactById(r.store, id) == r.result
  {
    var r := UpdateContact(cs, id, body);
    if r.result.Some? {
      var i := FindIndex(cs, id);
      assert FirstMatch(r.store, id, i);
      assert FindIndex(r.store, id) == i;
    }
  }

  /** Update is a full replace: every field of the old record that the body lacks (other than `id`) is gone. */
  lemma UpdateDropsMissingFields(cs: seq<Contact>, id: string, body: Object, k: string)
    requires k != "id" && k !in body
    ensures var r := UpdateContact(cs, id, body);
      r.result.Some? ==> k !in r.result.value
  {
  }

  /** Update only touches the first matching record: every other position is unchanged. */
  lemma UpdateKeepsOthers(cs: seq<Contact>, id: string, body: Object, j: int)
    requires 0 <= j < |cs|
    requires !HasId(cs[j], id) || exists i :: 0 <= i < j && HasId(cs[i], id)
    ensures UpdateContact(cs, id, body).store[j] == cs[j]
  {
  }
}

=== FILE: joi_rules.dfy ===
/**
 * The part of Joi's object validation the schemas use, as a small interpreter:
 * a schema is a list of keyed rules, checked in order, stopping at the first
 * failure (Joi's default `abortEarly`), and keys the schema does not declare are
 * refused. Joi's e-mail address grammar is a parameter; its `minDomainSegments`
 * option is spelled out.
 */
module JoiRules {
  import opened Base
  import opened Json
  import opened Text

  /** The extra rule a `Joi.string()` carries. */
  datatype StringCheck =
    | AnyString               // no further rule
    | Email                   // .email({ minDomainSegments: 2 })
    | TenDigits(message: string)   // .regex(/^[0-9]{10}$/) with a custom pattern message
    | MinLength(n: nat)       // .min(n), counted in UTF-16 code units

  /** The rule for one key's value. */
  datatype KeyRule =
    | StringKey(check: StringCheck, allowBlank: bool)   // allowBlank: .allow('', null)
    | BooleanKey
    | OneOf(options: set<string>)                       // Joi.string().valid(...)

  /** One declared key: its rule, `.required()`, and `.default(v)`. */
  datatype Field = Field(key: string, rule: KeyRule, required: bool, default: Option<Value>)

  /** Why a value was refused. */
  datatype IssueKind =
    | Required
    | NotString
    | EmptyString
    | NotEmail
    | PatternMismatch(message: string)
    | TooShort(min: nat)
    | NotBoolean
    | NotOneOf

  /** The reported error: the first failing declared key, or a key the schema does not declare. */
  datatype Issue = FieldIssue(key: string, kind: IssueKind) | UnknownKey

  /** The domain part's dot-separated labels: what follows the last `@`, split on `.`. */
  function DomainSegments(address: string): (n: nat)
    ensures n >= 1
  {
    var atPieces := Split(address, '@');
    |Split(atPieces[|atPieces| - 1], '.')|
  }

  /** Two or more domain segments need a dot in the address. */
  lemma SegmentsNeedDot(address: string)
    ensures DomainSegments(address) >= 2 ==> '.' in address
  {
    var atPieces := Split(address, '@');
    var domain := atPieces[|atPieces| - 1];
    assert DomainSegments(address) == |Split(domain, '.')|;
    if '.' !in domain {
      SplitWithoutSeparator(domain, '.');
    } else {
      SplitJoin(address, '@');
      JoinKeepsLastPiece(atPieces, '@');
    }
  }

  /**
   * `.email({ minDomainSegments: 2 })`: the address grammar holds and the domain has two or
   * more labels, so an accepted address always carries a dot.
   */
  predicate EmailOk(grammar: string -> bool, s: string)
    ensures EmailOk(grammar, s) ==> grammar(s) && '.' in s
    ensures !grammar(s) ==> !EmailOk(grammar, s)
  {
    SegmentsNeedDot(s);
    grammar(s) && DomainSegments(s) >= 2
  }

  /**
   * For an address with exactly one `@`, the domain segments are the dot-separated pieces
   * of what follows it (`JoinSplit` shows these are the labels `l1`, …, `ln` of
   * `l1.l2.….ln`).
   */
  lemma DomainSegmentsCount(local: string, domain: string)
    requires '@' !in local && '@' !in domain
    ensures DomainSegments(local + "@" + domain) == |Split(domain, '.')|
  {
    SplitWithoutSeparator(domain, '@');
    SplitAtFirstSeparator(local, '@', domain);
    assert local + "@" + domain == local + ['@'] + domain;
  }

  /** Such an address passes `.email({ minDomainSegments: 2 })` exactly when the grammar accepts it and its domain splits into two or more labels at `.`. */
  lemma EmailOkBySegments(grammar: string -> bool, local: string, domain: string)
    requires '@' !in local && '@' !in domain
    ensures EmailOk(grammar, local + "@" + domain) <==> grammar(local + "@" + domain) && |Split(domain, '.')| >= 2
  {
    DomainSegmentsCount(local, domain);
  }

  /** `/^[0-9]{10}$/`: exactly ten ASCII digits and nothing else. */
  predicate IsTenDigits(s: string)
  {
    |s| == 10 && forall i :: 0 <= i < |s| ==> IsAsciiDigit(s[i])
  }

  /** The strings `Joi.boolean()` converts, compared without regard to case. */
  predicate BooleanWord(s: string)
  {
    AsciiLower(s) == "true" || AsciiLower(s) == "false"
  }

  /** A value `Joi.boolean()` accepts: a boolean or a boolean word. */
  predicate BooleanLike(v: Value)
  {
    v.Bool? || (v.Str? && BooleanWord(v.s))
  }

  /** A value the plain `Joi.string()` base accepts: a string other than `''`. */
  predicate NonEmptyString(v: Value)
  {
    v.Str? && v.s != ""
  }

  /** The values `.allow('', null)` lets through without further checks. */
  predicate Blank(v: Value)
  {
    v == Str("") || v == Null
  }

  /** The string rules after the base check. */
  function CheckString(check: StringCheck, s: string, grammar: string -> bool): (r: Result<Value, IssueKind>)
    ensures r.Ok? ==> r.value == Str(s)
    ensures check.AnyString? ==> r.Ok?
    ensures check.Email? ==> (r.Ok? <==> EmailOk(grammar, s))
    ensures check.Email? && r.Err? ==> r.error == NotEmail
    ensures check.TenDigits? ==> (r.Ok? <==> IsTenDigits(s))
    ensures check.TenDigits? && r.Err? ==> r.error == PatternMismatch(check.message)
    ensures check.MinLength? ==> (r.Ok? <==> Utf16Length(s) >= check.n)
    ensures check.MinLength? && r.Err? ==> r.error == TooShort(check.n)
  {
    match check
    case AnyString => Ok(Str(s))
    case Email => if EmailOk(grammar, s) then Ok(Str(s)) else Err(NotEmail)
    case TenDigits(message) => if IsTenDigits(s) then Ok(Str(s)) else Err(PatternMismatch(message))
    case MinLength(n) => if Utf16Length(s) >= n then Ok(Str(s)) else Err(TooShort(n))
  }

  /** Validate and convert one present value: allowed values first, then the type, emptiness and rules. */
  function CheckValue(rule: KeyRule, v: Value, grammar: string -> bool): (r: Result<Value, IssueKind>)
    ensures rule.BooleanKey? ==> (r.Ok? <==> BooleanLike(v))
    ensures rule.BooleanKey? && r.Ok? ==> r.value.Bool? && (v.Bool? ==> r.value == v)
    ensures rule.BooleanKey? && r.Ok? && v.Str? ==> r.value == Bool(AsciiLower(v.s) == "true")
    ensures rule.OneOf? ==> (r.Ok? <==> v.Str? && v.s in rule.options)
    ensures rule.StringKey? && rule.allowBlank && Blank(v) ==> r == Ok(v)
    ensures rule.StringKey? && !(rule.allowBlank && Blank(v)) ==> (r.Ok? ==> NonEmptyString(v))
    ensures rule.StringKey? && !(rule.allowBlank && Blank(v)) && !v.Str? ==> r == Err(NotString)
    ensures rule.StringKey? && !(rule.allowBlank && Blank(v)) && v == Str("") ==> r == Err(EmptyString)
    ensures rule.StringKey? && !(rule.allowBlank && Blank(v)) && NonEmptyString(v) ==>
      r == CheckString(rule.check, v.s, grammar)
    ensures r.Ok? && !rule.BooleanKey? ==> r.value == v
  {
    match rule
    case StringKey(check, allowBlank) =>
      if allowBlank && Blank(v) then Ok(v)
      else if !v.Str? then Err(NotString)
      else if v.s == "" then Err(EmptyString)
      else CheckString(check, v.s, grammar)
    case BooleanKey =>
      if v.Bool? then Ok(v)
      else if v.Str? && AsciiLower(v.s) == "true" then Ok(Bool(true))
      else if v.Str? && AsciiLower(v.s) == "false" then Ok(Bool(false))
      else Err(NotBoolean)
    case OneOf(options) =>
      if v.Str? && v.s in options then Ok(v) else Err(NotOneOf)
  }

  /** One declared key: a missing key fails only if required and otherwise takes its default. */
  function CheckField(f: Field, body: Object, grammar: string -> bool): (r: Result<Option<Value>, Issue>)
    ensures f.key !in body ==> (r.Ok? <==> !f.required)
    ensures f.key !in body && r.Ok? ==> r.value == f.default
    ensures f.key in body ==> (r.Ok? <==> CheckValue(f.rule, body[f.key], grammar).Ok?)
    ensures f.key in body && r.Ok? ==> r.value == Some(CheckValue(f.rule, body[f.key], grammar).value)
    ensures r.Err? ==> r.error.FieldIssue? && r.error.key == f.key
  {
    if f.key !in body then
      if f.required then Err(FieldIssue(f.key, Required)) else Ok(f.default)
    else
      match CheckValue(f.rule, body[f.key], grammar)
      case Err(kind) => Err(FieldIssue(f.key, kind))
      case Ok(v) => Ok(Some(v))
  }

  /** The declared keys, in order, each checked before the ones after it. */
  function CheckFields(fields: seq<Field>, body: Object, grammar: string -> bool): (r: Result<Object, Issue>)
    ensures r.Err? ==> r.error.FieldIssue? && r.error.key in Keys(fields)
  {
    if |fields| == 0 then Ok(map[])
    else
      match CheckField(fields[0], body, grammar)
      case Err(issue) => Err(issue)
      case Ok(entry) =>
        match CheckFields(fields[1..], body, grammar)
        case Err(issue) => Err(issue)
        case Ok(rest) => Ok(if entry.Some? then rest[fields[0].key := entry.value] else rest)
  }

  function Keys(fields: seq<Field>): set<string>
  {
    set i | 0 <= i < |fields| :: fields[i].key
  }

  ghost predicate DistinctKeys(fields: seq<Field>)
  {
    forall i, j :: 0 <= i < j < |fields| ==> fields[i].key != fields[j].key
  }

  /**
   * `schema.validate(body)`: the converted object (defaults filled in) or the first issue.
   * A key the schema does not declare is reported only once every declared key has passed,
   * and a field issue always names a declared key.
   */
  function Validate(schema: seq<Field>, body: Object, grammar: string -> bool): (r: Result<Object, Issue>)
    ensures r.Ok? ==> body.Keys <= Keys(schema)
    ensures r.Err? ==> (r.error.UnknownKey? <==> CheckFields(schema, body, grammar).Ok? && !(body.Keys <= Keys(schema)))
    ensures r.Err? && r.error.FieldIssue? ==> r.error.key in Keys(schema)
  {
    match CheckFields(schema, body, grammar)
    case Err(issue) => Err(issue)
    case Ok(out) => if body.Keys <= Keys(schema) then Ok(out) else Err(UnknownKey)
  }

  /** The fields pass together exactly when each passes on its own. */
  lemma {:induction false} CheckFieldsOk(fields: seq<Field>, body: Object, grammar: string -> bool)
    ensures CheckFields(fields, body, grammar).Ok? <==>
      forall i :: 0 <= i < |fields| ==> CheckField(fields[i], body, grammar).Ok?
  {
    if |fields| > 0 {
      CheckFieldsOk(fields[1..], body, grammar);
      assert forall i :: 1 <= i < |fields| ==> fields[i] == fields[1..][i - 1];
    }
  }

  /** The first field that fails is the one reported. */
  lemma {:induction false} FirstFailureReported(fields: seq<Field>, body: Object, grammar: string -> bool, k: int)
    requires 0 <= k < |fields|
    requires CheckField(fields[k], body, grammar).Err?
    requires forall i :: 0 <= i < k ==> CheckField(fields[i], body, grammar).Ok?
    ensures CheckFields(fields, body, grammar) == Err(CheckField(fields[k], body, grammar).error)
  {
    if k > 0 {
      assert forall i :: 0 <= i < k - 1 ==> fields[1..][i] == fields[i + 1];
      FirstFailureReported(fields[1..], body, grammar, k - 1);
    }
  }

  /** On success each declared key holds its converted value or its default, and nothing else is there. */
  lemma {:induction false} CheckFieldsOutput(fields: seq<Field>, body: Object, grammar: string -> bool)
    requires DistinctKeys(fields)
    ensures var r := CheckFields(fields, body, grammar);
      r.Ok? ==>
        && r.value.Keys <= Keys(fields)
        && forall i :: 0 <= i < |fields| && CheckField(fields[i], body, grammar).Ok? ==>
             var e := CheckField(fields[i], body, grammar).value;
             && (e.Some? ==> fields[i].key in r.value && r.value[fields[i].key] == e.value)
             && (e.None? ==> fields[i].key !in r.value)
  {
    if |fields| > 0 {
      var tail := fields[1..];
      assert DistinctKeys(tail) by {
        forall i, j | 0 <= i < j < |tail| ensures tail[i].key != tail[j].key {
          assert tail[i] == fields[i + 1] && tail[j] == fields[j + 1];
        }
      }
      CheckFieldsOutput(tail, body, grammar);
      CheckFieldsOk(fields, body, grammar);
      assert forall i :: 1 <= i < |fields| ==> fields[i] == tail[i - 1];
      assert Keys(fields) == {fields[0].key} + Keys(tail) by {
        forall k | k in Keys(tail) ensures k in Keys(fields) {
          var i :| 0 <= i < |tail| && tail[i].key == k;
          assert fields[i + 1].key == k;
        }
      }
      assert fields[0].key !in Keys(tail) by {
        forall i | 0 <= i < |tail| ensures tail[i].key != fields[0].key {
          assert tail[i] == fields[i + 1];
        }
      }
    }
  }

  /** A schema accepts a body exactly when every declared key passes and no undeclared key is present. */
  lemma ValidateOk(schema: seq<Field>, body: Object, grammar: string -> bool)
    ensures Validate(schema, body, grammar).Ok? <==>
      && body.Keys <= Keys(schema)
      && forall i :: 0 <= i < |schema| ==> CheckField(schema[i], body, grammar).Ok?
  {
    CheckFieldsOk(schema, body, grammar);
  }
}

=== FILE: json.dfy ===
/** JSON values as they appear in request bodies, in the contacts file and in responses. */
module Json {

  /** A JSON value. Numbers are kept as opaque reals: nothing in the model computes with them. */
  datatype Value =
    | Null
    | Bool(b: bool)
    | Num(n: real)
    | Str(s: string)
    | Arr(items: seq<Value>)
    | Obj(fields: map<string, Value>)

  /** A JSON object, the shape of every request body and of every stored contact. */
  type Object = map<string, Value>

  /** What an Express handler sends: a status code and a JSON body (`res.status(s).json(b)`). */
  datatype Response = Response(status: int, body: Value)

  /** The `{ message: m }` body every error response in the API uses. */
  function Message(m: string): (v: Value)
    ensures v.Obj? && v.fields.Keys == {"message"} && v.fields["message"] == Str(m)
  {
    Obj(map["message" := Str(m)])
  }

  /** `res.json(b)` without an explicit status: Express answers 200. */
  function JsonOk(b: Value): Response
  {
    Response(200, b)
  }
}

=== FILE: owner_guard.dfy ===
/**
 * The ownership guard for single-contact routes: one lookup keyed by the contact id
 * and the acting user's id decides between passing control on, 404 and 500.
 * The lookup (`Contact.findOne` on the Mongoose contact model) and `isValidObjectId`
 * are parameters.
 */
module OwnerGuard {
  import opened Base
  import opened Json
  import opened UserModel

  /** `await Contact.findOne({ _id, owner })`: a document, null, or the error it threw. */
  datatype Found = Hit | Miss | FindThrew(message: string)

  /** The guard either calls `next()` (without attaching the contact) or answers. */
  datatype Guard = Proceed | Respond(response: Response)

  /** The TypeError message Node.js 16.9 and later give when `req.user._id` is read while `req.user` is null. */
  const NullUserMessage := "Cannot read properties of null (reading '_id')"

  const NotFound := Response(404, Message("Not Found"))

  /** The catch block: an id that is not an ObjectId is reported as absent; anything else is a 500. */
  function Caught(contactId: string, message: string, isValidObjectId: string -> bool): (g: Guard)
    ensures !isValidObjectId(contactId) ==> g == Respond(NotFound)
    ensures isValidObjectId(contactId) ==> g == Respond(Response(500, Message(message)))
  {
    if !isValidObjectId(contactId) then Respond(NotFound)
    else Respond(Response(500, Message(message)))
  }

  /**
   * `checkContactOwner(req, res, next)` for `req.params.contactId` and `req.user`.
   * A null `req.user` (which the auth middleware lets through) throws inside the try.
   */
  function CheckContactOwner(contactId: string, actor: Option<User>, findOne: (string, string) -> Found, isValidObjectId: string -> bool): (g: Guard)
    ensures g == Proceed <==> actor.Some? && findOne(contactId, actor.value.id) == Hit
    ensures actor.Some? && findOne(contactId, actor.value.id) == Miss ==> g == Respond(NotFound)
    ensures g.Respond? ==> g.response.status in {404, 500}
    ensures g.Respond? && g.response.status == 500 ==> isValidObjectId(contactId)
    ensures actor.None? ==> g == Caught(contactId, NullUserMessage, isValidObjectId)
    ensures actor.Some? && findOne(contactId, actor.value.id).FindThrew? ==>
      g == Caught(contactId, findOne(contactId, actor.value.id).message, isValidObjectId)
  {
    if actor.None? then Caught(contactId, NullUserMessage, isValidObjectId)
    else
      match findOne(contactId, actor.value.id)
      case Hit => Proceed
      case Miss => Respond(NotFound)
      case FindThrew(m) => Caught(contactId, m, isValidObjectId)
  }

  /** A stored contact's id and its owner's id: all the guard's query looks at. */
  datatype Owned = Owned(id: string, owner: string)

  /** The message Mongoose's cast error carries for an id that is not an ObjectId. */
  function CastMessage(contactId: string): string
  {
    "Cast to ObjectId failed for value \"" + contactId + "\" (type string) at path \"_id\" for model \"contact\""
  }

  /** `findOne({ _id, owner })` over a concrete collection: it throws on an id it cannot cast. */
  function StoreFind(store: set<Owned>, isValidObjectId: string -> bool): (string, string) -> Found
  {
    (contactId: string, ownerId: string) =>
      if !isValidObjectId(contactId) then FindThrew(CastMessage(contactId))
      else if Owned(contactId, ownerId) in store then Hit
      else Miss
  }

  /** The contacts of one owner. */
  function OwnedBy(store: set<Owned>, ownerId: string): set<Owned>
  {
    set o | o in store && o.owner == ownerId
  }

  /**
   * No ownership leak: the guard's answer depends only on the acting user's own
   * contacts, so another user's contact looks exactly like a missing one.
   */
  lemma OthersContactsAreInvisible(contactId: string, actor: User, s1: set<Owned>, s2: set<Owned>, isValidObjectId: string -> bool)
    requires OwnedBy(s1, actor.id) == OwnedBy(s2, actor.id)
    ensures CheckContactOwner(contactId, Some(actor), StoreFind(s1, isValidObjectId), isValidObjectId)
         == CheckContactOwner(contactId, Some(actor), StoreFind(s2, isValidObjectId), isValidObjectId)
  {
    var o := Owned(contactId, actor.id);
    assert o in s1 <==> o in OwnedBy(s1, actor.id);
    assert o in s2 <==> o in OwnedBy(s2, actor.id);
  }

  /**
   * With a concrete collection whose lookup fails only on an id it cannot cast, a
   * signed-in user only ever sees `next()` or 404. A database failure on a well-formed
   * id would still give 500; `StoreFind` does not model one.
   */
  lemma StoreGuardNeverFails(contactId: string, actor: User, store: set<Owned>, isValidObjectId: string -> bool)
    ensures var g := CheckContactOwner(contactId, Some(actor), StoreFind(store, isValidObjectId), isValidObjectId);
      && (g == Proceed <==> isValidObjectId(contactId) && Owned(contactId, actor.id) in store)
      && (g != Proceed ==> g == Respond(NotFound))
  {
  }

  /** A null acting user never passes: 404 for a malformed id, 500 otherwise. */
  lemma NullActorNeverProceeds(contactId: string, findOne: (string, string) -> Found, isValidObjectId: string -> bool)
    ensures var g := CheckContactOwner(contactId, None, findOne, isValidObjectId);
      && g.Respond?
      && (isValidObjectId(contactId) <==> g.response == Response(500, Message(NullUserMessage)))
  {
  }
}

=== FILE: text.dfy ===
/** Character-level helpers shared by the header parser and the validators. */
module Text {

  /**
   * `s.split(sep)` for a one-character string separator: every occurrence of `sep`
   * cuts, adjacent separators give empty pieces, and the result is never empty
   * (`"".split(" ")` is `[""]`).
   */
  function Split(s: string, sep: char): (pieces: seq<string>)
    ensures |pieces| >= 1
    ensures |pieces| <= |s| + 1
  {
    if |s| == 0 then [""]
    else
      var rest := Split(s[1..], sep);
      if s[0] == sep then [""] + rest
      else [[s[0]] + rest[0]] + rest[1..]
  }

  /** `pieces.join(sep)`: the inverse of `Split` (see `SplitJoin` and `JoinSplit`). */
  function Join(pieces: seq<string>, sep: char): (s: string)
    requires |pieces| >= 1
    ensures pieces[0] <= s
  {
    if |pieces| == 1 then pieces[0]
    else pieces[0] + [sep] + Join(pieces[1..], sep)
  }

  /** Joining the pieces of a split gives back the original string. */
  lemma {:induction false} SplitJoin(s: string, sep: char)
    ensures Join(Split(s, sep), sep) == s
  {
    if |s| > 0 {
      var rest := Split(s[1..], sep);
      SplitJoin(s[1..], sep);
      if s[0] == sep {
        assert ([""] + rest)[1..] == rest;
      } else if |rest| > 1 {
        assert ([[s[0]] + rest[0]] + rest[1..])[1..] == rest[1..];
        assert s == [s[0]] + s[1..];
      } else {
        assert s == [s[0]] + s[1..];
      }
    }
  }

  /** No piece of a split contains the separator. */
  lemma {:induction false} SplitPiecesAvoidSeparator(s: string, sep: char)
    ensures forall i :: 0 <= i < |Split(s, sep)| ==> sep !in Split(s, sep)[i]
  {
    if |s| > 0 {
      SplitPiecesAvoidSeparator(s[1..], sep);
      var rest := Split(s[1..], sep);
      if s[0] != sep {
        assert sep !in rest[0];
        assert forall i :: 1 <= i < |rest| ==> sep !in rest[i];
      }
    }
  }

  /** A string without the separator splits into itself alone. */
  lemma {:induction false} SplitWithoutSeparator(a: string, sep: char)
    requires sep !in a
    ensures Split(a, sep) == [a]
  {
    if |a| > 0 {
      SplitWithoutSeparator(a[1..], sep);
      assert a == [a[0]] + a[1..];
    }
  }

  /** The first piece ends at the first separator; the rest of the split is the split of what follows it. */
  lemma {:induction false} SplitAtFirstSeparator(a: string, sep: char, t: string)
    requires sep !in a
    ensures Split(a + [sep] + t, sep) == [a] + Split(t, sep)
  {
    if |a| == 0 {
      assert (a + [sep] + t)[1..] == t;
    } else {
      assert (a + [sep] + t)[1..] == a[1..] + [sep] + t;
      SplitAtFirstSeparator(a[1..], sep, t);
      assert a == [a[0]] + a[1..];
    }
  }

  /** Every character of the last piece appears in the joined string. */
  lemma {:induction false} JoinKeepsLastPiece(pieces: seq<string>, sep: char)
    requires |pieces| >= 1
    ensures forall c :: c in pieces[|pieces| - 1] ==> c in Join(pieces, sep)
  {
    if |pieces| > 1 {
      JoinKeepsLastPiece(pieces[1..], sep);
      assert pieces[1..][|pieces[1..]| - 1] == pieces[|pieces| - 1];
      var s := Join(pieces, sep);
      assert s == pieces[0] + [sep] + Join(pieces[1..], sep);
      forall c | c in Join(pieces[1..], sep) ensures c in s {
        var k :| 0 <= k < |Join(pieces[1..], sep)| && Join(pieces[1..], sep)[k] == c;
        assert s[|pieces[0]| + 1 + k] == c;
      }
    }
  }

  /** Splitting a join of separator-free pieces gives back exactly those pieces. */
  lemma {:induction false} JoinSplit(pieces: seq<string>, sep: char)
    requires |pieces| >= 1
    requires forall i :: 0 <= i < |pieces| ==> sep !in pieces[i]
    ensures Split(Join(pieces, sep), sep) == pieces
  {
    if |pieces| == 1 {
      SplitWithoutSeparator(pieces[0], sep);
    } else {
      JoinSplit(pieces[1..], sep);
      SplitAtFirstSeparator(pieces[0], sep, Join(pieces[1..], sep));
      assert pieces == [pieces[0]] + pieces[1..];
    }
  }

  /** The number of UTF-16 code units of one character: two for characters outside the basic plane. */
  function Utf16Units(c: char): nat
  {
    if c as int > 0xFFFF then 2 else 1
  }

  /** JavaScript's `s.length`, which counts UTF-16 code units rather than characters. */
  function Utf16Length(s: string): (n: nat)
    ensures |s| <= n <= 2 * |s|
    ensures n == 0 <==> s == ""
  {
    if |s| == 0 then 0 else Utf16Units(s[0]) + Utf16Length(s[1..])
  }

  /** `(a + b).length` is `a.length + b.length`. */
  lemma {:induction false} Utf16LengthConcat(a: string, b: string)
    ensures Utf16Length(a + b) == Utf16Length(a) + Utf16Length(b)
  {
    if |a| > 0 {
      Utf16LengthConcat(a[1..], b);
      assert (a + b)[1..] == a[1..] + b;
    } else {
      assert a + b == b;
    }
  }

  /** Without characters beyond U+FFFF (ASCII, for one), `.length` is the number of characters. */
  lemma {:induction false} Utf16LengthOfBmp(s: string)
    requires forall i :: 0 <= i < |s| ==> s[i] as int <= 0xFFFF
    ensures Utf16Length(s) == |s|
  {
    if |s| > 0 {
      assert forall i :: 0 <= i < |s[1..]| ==> s[1..][i] == s[i + 1];
      Utf16LengthOfBmp(s[1..]);
    }
  }

  predicate IsAsciiDigit(c: char)
  {
    '0' <= c <= '9'
  }

  /** Lower-cases the ASCII letters and leaves every other character alone. */
  function AsciiLower(s: string): (r: string)
    ensures |r| == |s|
    ensures forall i :: 0 <= i < |s| && !('A' <= s[i] <= 'Z') ==> r[i] == s[i]
  {
    seq(|s|, i requires 0 <= i < |s| => if 'A' <= s[i] <= 'Z' then (s[i] as int + 32) as char else s[i])
  }
}

=== FILE: user_model.dfy ===
/**
 * The Mongoose `user` model: the stored record, its defaults, its required fields,
 * its subscription enumeration and the unique index on `email`.
 */
module UserModel {
  import opened Base
  import opened Json

  /** The `subscription` enumeration. */
  datatype Subscription = Starter | Pro | Business

  /** The string stored for each subscription tier: one of the schema's enum values, naming that tier. */
  function SubscriptionName(s: Subscription): (r: string)
    ensures r in {"starter", "pro", "business"}
    ensures ParseSubscription(r) == Some(s)
  {
    match s
    case Starter => "starter"
    case Pro => "pro"
    case Business => "business"
  }

  /** The tier a stored string names, if it is one of the enumeration's values. */
  function ParseSubscription(s: string): (r: Option<Subscription>)
    ensures r.Some? <==> s in {"starter", "pro", "business"}
  {
    if s == "starter" then Some(Starter)
    else if s == "pro" then Some(Pro)
    else if s == "business" then Some(Business)
    else None
  }

  /** Parsing is the exact inverse of naming, in both directions. */
  lemma SubscriptionRoundTrip(t: Subscription, s: string)
    ensures ParseSubscription(SubscriptionName(t)) == Some(t)
    ensures ParseSubscription(s) == Some(t) ==> SubscriptionName(t) == s
  {
  }

  /** A stored user. `id` is the document's `_id`; `password` holds whatever the caller stored (a hash). */
  datatype User = User(
    id: string,
    email: string,
    password: string,
    subscription: Subscription,
    avatarUrl: string,
    token: Option<string>)

  /** The fields handed to `User.create`; absent fields are `None`. */
  datatype NewUser = NewUser(
    email: Option<string>,
    password: Option<string>,
    subscription: Option<string>,
    avatarUrl: Option<string>,
    token: Option<string>)

  /** Why `User.create` failed: schema validation (the failing paths) or the unique email index (E11000). */
  datatype CreateError = ValidationError(paths: set<string>) | DuplicateKey

  /** The users collection after an insert attempt and the insert's outcome. */
  datatype Insert = Insert(users: seq<User>, result: Result<User, CreateError>)

  /** A Mongoose `required` string is present and non-empty. */
  predicate RequiredString(v: Option<string>)
  {
    v.Some? && v.value != ""
  }

  /** The paths that fail schema validation; the subscription default is applied before validating. */
  function InvalidPaths(u: NewUser): (paths: set<string>)
    ensures "password" in paths <==> !RequiredString(u.password)
    ensures "email" in paths <==> !RequiredString(u.email)
    ensures "subscription" in paths <==> u.subscription.Some? && ParseSubscription(u.subscription.value).None?
    ensures paths <= {"password", "email", "subscription"}
  {
    (if RequiredString(u.password) then {} else {"password"})
    + (if RequiredString(u.email) then {} else {"email"})
    + (if u.subscription.Some? && ParseSubscription(u.subscription.value).None? then {"subscription"} else {})
  }

  ghost predicate EmailTaken(users: seq<User>, email: string)
  {
    exists i :: 0 <= i < |users| && users[i].email == email
  }

  /** The unique index on `email`: no two stored users share one. */
  ghost predicate UniqueEmails(users: seq<User>)
  {
    forall i, j :: 0 <= i < j < |users| ==> users[i].email != users[j].email
  }

  function EmailInUse(users: seq<User>, email: string): (b: bool)
    ensures b <==> EmailTaken(users, email)
  {
    if |users| == 0 then false
    else users[0].email == email || EmailInUse(users[1..], email)
  }

  /**
   * `User.create(fields)` with `_id` `freshId`: validation first, then the unique
   * index, then the insert with defaults (starter, `''`, null) for absent fields.
   */
  function Create(users: seq<User>, u: NewUser, freshId: string): (r: Insert)
    ensures r.result.Err? ==> r.users == users
    ensures r.result.Err? && r.result.error.ValidationError? ==> r.result.error.paths == InvalidPaths(u) != {}
    ensures r.result == Err(DuplicateKey) <==> InvalidPaths(u) == {} && EmailTaken(users, u.email.value)
    ensures r.result.Ok? ==> r.users == users + [r.result.value]
    ensures r.result.Ok? ==>
      var made := r.result.value;
      && u.email == Some(made.email) && u.password == Some(made.password) && made.id == freshId
      && made.email != "" && made.password != ""
      && (u.subscription.None? ==> made.subscription == Starter)
      && (u.subscription.Some? ==> SubscriptionName(made.subscription) == u.subscription.value)
      && (u.avatarUrl.None? ==> made.avatarUrl == "")
      && (u.avatarUrl.Some? ==> made.avatarUrl == u.avatarUrl.value)
      && made.token == u.token
  {
    var bad := InvalidPaths(u);
    if bad != {} then Insert(users, Err(ValidationError(bad)))
    else if EmailInUse(users, u.email.value) then Insert(users, Err(DuplicateKey))
    else
      var tier := if u.subscription.Some? then ParseSubscription(u.subscription.value).value else Starter;
      var avatar := if u.avatarUrl.Some? then u.avatarUrl.value else "";
      var made := User(freshId, u.email.value, u.password.value, tier, avatar, u.token);
      Insert(users + [made], Ok(made))
  }

  /** Creation keeps the unique-email invariant. */
  lemma CreateKeepsEmailsUnique(users: seq<User>, u: NewUser, freshId: string)
    requires UniqueEmails(users)
    ensures UniqueEmails(Create(users, u, freshId).users)
  {
  }

  /**
   * A user is created only if the tier asked for, when one is given, is one of the
   * enumeration's names, and the stored tier is then exactly that one.
   */
  lemma CreatedSubscriptionIsNamed(users: seq<User>, u: NewUser, freshId: string)
    ensures var r := Create(users, u, freshId);
      r.result.Ok? && u.subscription.Some? ==>
        && u.subscription.value in {"starter", "pro", "business"}
        && r.result.value.subscription == ParseSubscription(u.subscription.value).value
  {
  }

  /** The reply of POST `/users/register` to the outcome of `User.create`; `None` is no response at all. */
  function RegistrationReply(r: Result<User, CreateError>): (reply: Option<Response>)
    ensures r.Ok? ==> reply.Some? && reply.value.status == 201
    ensures r == Err(DuplicateKey) <==> reply == Some(Response(409, Message("Email in use")))
    ensures r.Err? && r.error.ValidationError? ==> reply.None?
  {
    match r
    case Ok(made) =>
      Some(Response(201, Obj(map["user" := Obj(map[
        "email" := Str(made.email),
        "subscription" := Str(SubscriptionName(made.subscription)),
        "avatarUrl" := Str(made.avatarUrl)])])))
    case Err(DuplicateKey) => Some(Response(409, Message("Email in use")))
    case Err(ValidationError(_)) => None
  }

  /**
   * Registering the same email twice: the second insert fails on the unique index,
   * changes nothing, and registration answers 409 `Email in use`.
   */
  lemma {:induction false} SecondRegistrationConflicts(users: seq<User>, first: NewUser, second: NewUser, id1: string, id2: string)
    requires InvalidPaths(first) == {} && InvalidPaths(second) == {}
    requires second.email == first.email
    ensures var r1 := Create(users, first, id1);
      var r2 := Create(r1.users, second, id2);
      && r2.result == Err(DuplicateKey)
      && r2.users == r1.users
      && RegistrationReply(r2.result) == Some(Response(409, Message("Email in use")))
  {
    var r1 := Create(users, first, id1);
    if r1.result.Ok? {
      assert r1.users[|users|].email == first.email.value;
      assert EmailTaken(r1.users, second.email.value);
    }
  }
}

=== FILE: user_schemas.dfy ===
/** The registration body schema and the stand-alone subscription schema. */
module UserSchemas {
  import opened Base
  import opened Json
  import opened Text
  import opened JoiRules
  import UserModel

  /** `userRegistSchema`: a required e-mail and a required password of eight or more code units. */
  const RegisterSchema: seq<Field> := [
    Field("email", StringKey(Email, false), true, None),
    Field("password", StringKey(MinLength(8), false), true, None)
  ]

  const SubscriptionNames: set<string> := {"starter", "pro", "business"}

  /** What the registration schema accepts, written out per key. */
  predicate RegisterAccepts(body: Object, grammar: string -> bool)
  {
    && body.Keys <= {"email", "password"}
    && "email" in body && NonEmptyString(body["email"]) && EmailOk(grammar, body["email"].s)
    && "password" in body && body["password"].Str? && Utf16Length(body["password"].s) >= 8
  }

  /** The registration schema accepts a body exactly when `RegisterAccepts` holds of it. */
  lemma RegisterAcceptsExactly(body: Object, grammar: string -> bool)
    ensures Validate(RegisterSchema, body, grammar).Ok? <==> RegisterAccepts(body, grammar)
  {
    ValidateOk(RegisterSchema, body, grammar);
    var s := RegisterSchema;
    assert s[0].key == "email" && s[1].key == "password";
    assert Keys(s) == {"email", "password"};
  }

  /** Either key missing fails registration, the e-mail being checked first. */
  lemma RegisterRequiresBoth(body: Object, grammar: string -> bool)
    ensures "email" !in body ==> Validate(RegisterSchema, body, grammar) == Err(FieldIssue("email", Required))
    ensures "password" !in body ==> Validate(RegisterSchema, body, grammar).Err?
  {
    if "email" !in body {
      FirstFailureReported(RegisterSchema, body, grammar, 0);
    } else if "password" !in body {
      RegisterAcceptsExactly(body, grammar);
    }
  }

  /** `subscriptionSchema.validate(v)`: an absent value passes, anything else must be one of the three names. */
  function ValidateSubscription(v: Option<Value>): (r: Result<Option<Value>, IssueKind>)
    ensures r.Ok? <==> v.None? || (v.value.Str? && v.value.s in SubscriptionNames)
    ensures r.Ok? ==> r.value == v
  {
    if v.None? then Ok(None)
    else
      // The e-mail grammar plays no part in a `valid` list, so any grammar will do.
      match CheckValue(OneOf(SubscriptionNames), v.value, _ => false)
      case Err(kind) => Err(kind)
      case Ok(x) => Ok(Some(x))
  }

  /** The schema and the user model's enumeration agree on which strings name a tier. */
  lemma SubscriptionSchemaMatchesModel(s: string)
    ensures ValidateSubscription(Some(Str(s))).Ok? <==> UserModel.ParseSubscription(s).Some?
  {
  }
}
